=== FILE: README.md ===
# WindowSizeLimiter for WinUI 3, modelled in Dafny

The system is a window-procedure hook. It enforces minimum and maximum
resize bounds on a native window. `WindowSizeLimiter` subclasses the window
and intercepts `WM_GETMINMAXINFO` (0x0024). While `Enabled` is set, it
overwrites the minimum track size in the message's `MINMAXINFO` payload with
`MinWidth`/`MinHeight`, scaled to device pixels. When `EnableMaxLimits` is
also set, it overwrites the maximum track size with `MaxWidth`/`MaxHeight`.
It then forwards every message to the previous window procedure.

The model has four modules:

- `Native` (`native.dfy`): the C# `int`/`uint` widths, the message number,
  and `POINT`/`MINMAXINFO`. It also models the structure's sequential layout
  as ten 32-bit words (`ToWords`/`FromWords`), which is what the marshalling
  reads and writes.
- `Scaling` (`scaling.dfy`): the scale `dpi / 96` captured at attach time.
  A size `v` becomes `(int)(v * scale)`. This is modelled exactly, as
  `v * dpi / 96` truncated toward zero, which is what the C# cast does. It
  is not Dafny's Euclidean `/`. The exact value equals the double
  computation for DPI values that are multiples of 3 (see "Left out").
  - The cast of a value outside the 32-bit range is unchecked in C#, and its
    result depends on the runtime. `CastRule` names the two behaviours:
    `Saturating` (clamp) and `Indefinite` (int.MinValue).
  - The limiter carries the rule, so the model covers both behaviours. No
    precondition is needed to exclude overflow.
- `Limiter` (`limiter.dfy`): the configuration with its defaults,
  construction (`Attach`), the payload rewrite (`Rewrite`) and the hook
  (`CustomWndProc`). The hook returns the call it makes to the previous
  procedure (`PrevCall`): same handle, same message, same wParam, and the
  possibly rewritten payload.
- `Session` (`session.dfy`): property writes and delivered messages over
  time.
  - The configuration is re-read on every message.
  - The DPI snapshot is never refreshed.
  - Switching the hook off takes effect at the next message.

Notes on the code:

- The hook does not validate its bounds. `BoundsOrderPassesThrough` shows
  that the scaled bounds keep the configured order and are never clamped.
  At 100 % scale or more, `InvertedWidthStaysInverted` and
  `InvertedHeightStaysInverted` show an inverted bound stays strictly
  inverted. Below 100 % truncation can make them equal
  (`InvertedWidthMayMeetBelowStandard`).
- With the default maximum of int.MaxValue, `EnableMaxLimits` switched on,
  and a scale above 100 %, the cast overflows.
  `DefaultMaximumOverflowsAboveStandard` shows the result: int.MinValue
  under the indefinite rule, int.MaxValue under the saturating one.
- Construction installs the hook without checking the result of the native
  calls. The model therefore has no failure path for attaching.

## Model

| member | source | states |
|---|---|---|
| Native.ToWords | WindowSizeLimiter/WindowSizeLimiter.cs:98-106 | the sequential layout is ten words, with the min track at words 6-7 and the max track at words 8-9; only these track-word offsets are stated, not where the other three points land |
| Native.FromWords | WindowSizeLimiter/WindowSizeLimiter.cs:57-69 | the structure read from ten words writes back to exactly those ten words |
| Native.FromWordsToWords | WindowSizeLimiter/WindowSizeLimiter.cs:98-106 | reading back the sequential layout of a written MINMAXINFO gives the same structure |
| Native.ToWordsFromWords | WindowSizeLimiter/WindowSizeLimiter.cs:98-106 | writing a structure read from ten words gives back those ten words |
| Native.ToWordsInjective | WindowSizeLimiter/WindowSizeLimiter.cs:91-106 | two MINMAXINFO values with the same memory layout are equal |
| Scaling.TruncDiv | WindowSizeLimiter/WindowSizeLimiter.cs:60-61 | the quotient is rounded toward zero: for a non-negative dividend it is the largest multiple not above it, for a negative one the smallest multiple not below it |
| Scaling.TruncDivUnique | WindowSizeLimiter/WindowSizeLimiter.cs:60-61 | any quotient meeting the toward-zero bracket equals TruncDiv, so the bracket is a complete specification of the cast |
| Scaling.TruncDivMonotone | WindowSizeLimiter/WindowSizeLimiter.cs:60-61 | truncation toward zero preserves the order of dividends |
| Scaling.TruncDivStep | WindowSizeLimiter/WindowSizeLimiter.cs:60-61 | dividends of one sign that differ by at least the divisor truncate to different quotients |
| Scaling.Scaled | WindowSizeLimiter/WindowSizeLimiter.cs:45-61 | the device size is size x dpi / 96 rounded toward zero: the largest integer not above it when the product is non-negative, the smallest integer not below it when negative |
| Scaling.ScaledAtStandardDpi | WindowSizeLimiter/WindowSizeLimiter.cs:44-45 | at 96 DPI the scale is 1 and a size is converted to itself |
| Scaling.ScaledAtWholeScale | WindowSizeLimiter/WindowSizeLimiter.cs:44-45 | at 96k DPI a size is exactly multiplied by k |
| Scaling.ScaledKeepsSign | WindowSizeLimiter/WindowSizeLimiter.cs:60-61 | a non-negative size scales to a non-negative one, a non-positive size to a non-positive one |
| Scaling.ScaledShrinksAtOrBelowStandard | WindowSizeLimiter/WindowSizeLimiter.cs:44-45 | at or below 96 DPI the scaled size lies between 0 and the logical size |
| Scaling.ScaledMonotoneInDpi | WindowSizeLimiter/WindowSizeLimiter.cs:44-45 | a higher DPI never shrinks the magnitude of a scaled size |
| Scaling.ScaledMonotone | WindowSizeLimiter/WindowSizeLimiter.cs:60-66 | scaling at a fixed DPI preserves the order of sizes |
| Scaling.ScaledStrictAtOrAboveStandard | WindowSizeLimiter/WindowSizeLimiter.cs:60-66 | at 96 DPI or more, a strictly smaller size scales to a strictly smaller device size |
| Scaling.CastToInt32 | WindowSizeLimiter/WindowSizeLimiter.cs:60-66 | an in-range value is kept; out of range, the indefinite rule gives int.MinValue, and the saturating rule gives int.MinValue for negative values and int.MaxValue for positive ones |
| Scaling.SaturatingCastMonotone | WindowSizeLimiter/WindowSizeLimiter.cs:60-66 | under the saturating rule the cast preserves order |
| Scaling.ToDevice | WindowSizeLimiter/WindowSizeLimiter.cs:60-61 | when the exact scaled size fits in 32 bits, the device size is that exact truncated value under either cast rule |
| Scaling.ToDeviceExactAtOrBelowStandard | WindowSizeLimiter/WindowSizeLimiter.cs:44-61 | at or below 96 DPI no 32-bit size overflows, so the device size is exact under either cast rule |
| Limiter.Attach | WindowSizeLimiter/WindowSizeLimiter.cs:26-45 | a new limiter has minimum 400 x 300, maximum int.MaxValue x int.MaxValue, is enabled, has max limits off, and keeps the window's DPI and the given cast rule |
| Limiter.Intercepts | WindowSizeLimiter/WindowSizeLimiter.cs:55 | a disabled limiter intercepts nothing, no message other than WM_GETMINMAXINFO is intercepted, and WM_GETMINMAXINFO is intercepted while enabled |
| Limiter.MinTrack | WindowSizeLimiter/WindowSizeLimiter.cs:60-61 | when they fit in 32 bits, the minimum track coordinates are MinWidth and MinHeight scaled exactly by dpi / 96 and truncated |
| Limiter.MaxTrack | WindowSizeLimiter/WindowSizeLimiter.cs:65-66 | when they fit in 32 bits, the maximum track coordinates are MaxWidth and MaxHeight scaled exactly by dpi / 96 and truncated |
| Limiter.Rewrite | WindowSizeLimiter/WindowSizeLimiter.cs:55-70 | ptReserved, ptMaxSize and ptMaxPosition never change; without interception the payload is unchanged; when intercepting, the min track becomes the scaled minimum; the max track becomes the scaled maximum exactly when intercepting with max limits on, and otherwise keeps its value |
| Limiter.CustomWndProc | WindowSizeLimiter/WindowSizeLimiter.cs:53-73 | every message is forwarded to the previous procedure with its own handle, number and wParam; the forwarded payload keeps ptReserved, ptMaxSize and ptMaxPosition, is the incoming payload unless intercepted, carries the configured minimum when intercepted, carries the configured maximum when intercepted with max limits on, and keeps the incoming maximum when max limits are off |
| Limiter.DisabledPassesThrough | WindowSizeLimiter/WindowSizeLimiter.cs:55-72 | with Enabled false every message, WM_GETMINMAXINFO included, is forwarded with its payload untouched |
| Limiter.OtherMessagesPassThrough | WindowSizeLimiter/WindowSizeLimiter.cs:55-79 | any message other than WM_GETMINMAXINFO is forwarded with its payload untouched, whatever the configuration |
| Limiter.RewriteIdempotent | WindowSizeLimiter/WindowSizeLimiter.cs:57-69 | rewriting the hook's own output with the same configuration gives the same payload |
| Limiter.RewriteLayoutFrame | WindowSizeLimiter/WindowSizeLimiter.cs:57-69 | in the structure's memory layout only the min-track words (and the max-track words when max limits are on) can change, taking the scaled configured sizes; every other word keeps its value |
| Limiter.MinTrackScaled | WindowSizeLimiter/WindowSizeLimiter.cs:60-61 | when the sizes fit in 32 bits, both min-track coordinates are the exact truncation of size x dpi / 96, with the same scale for X and Y |
| Limiter.RewriteAtStandardDpi | WindowSizeLimiter/WindowSizeLimiter.cs:45-66 | at 96 DPI the min track is exactly (MinWidth, MinHeight), and with max limits on the max track is exactly (MaxWidth, MaxHeight) |
| Limiter.DefaultsAtStandardDpi | WindowSizeLimiter/WindowSizeLimiter.cs:26-31 | a fresh limiter at 96 DPI sets the min track to 400 x 300 and leaves the max track as received |
| Limiter.ScenarioOneAndAHalf | WindowSizeLimiter/WindowSizeLimiter.cs:60-67 | at 144 DPI, a 600 x 400 minimum with max limits off gives a 900 x 600 min track and an untouched max track |
| Limiter.BoundsOrderPassesThrough | WindowSizeLimiter/WindowSizeLimiter.cs:60-66 | with no overflow, the scaled min and max tracks keep the order of the configured bounds in both directions, so inverted bounds are not clamped |
| Limiter.InvertedWidthStaysInverted | WindowSizeLimiter/WindowSizeLimiter.cs:60-66 | at 100 % scale or more, MinWidth above MaxWidth gives a min-track X strictly above the max-track X |
| Limiter.InvertedHeightStaysInverted | WindowSizeLimiter/WindowSizeLimiter.cs:60-66 | at 100 % scale or more, MinHeight above MaxHeight gives a min-track Y strictly above the max-track Y |
| Limiter.InvertedWidthMayMeetBelowStandard | WindowSizeLimiter/WindowSizeLimiter.cs:60-66 | at 48 DPI, a minimum width of 3 over a maximum of 2 truncates to equal tracks of 1 |
| Limiter.DefaultMaximumOverflowsAboveStandard | WindowSizeLimiter/WindowSizeLimiter.cs:28-66 | with the default int.MaxValue maximum, max limits on and 144 DPI, the max track is int.MinValue under the indefinite cast rule and int.MaxValue under the saturating one |
| Session.Run | WindowSizeLimiter/WindowSizeLimiter.cs:53-73 | a session makes exactly one forwarded call per delivered message, in order, each with that message's handle, number and wParam |
| Session.FinalKeepsDpi | WindowSizeLimiter/WindowSizeLimiter.cs:42-46 | no sequence of property writes or messages changes the DPI captured at construction |
| Session.RunAppend | WindowSizeLimiter/WindowSizeLimiter.cs:26-31 | a split session runs its second part from the configuration the first part left, with no other carried state |
| Session.Apply | WindowSizeLimiter/WindowSizeLimiter.cs:26-31 | a write replaces exactly the written property and leaves the other five unchanged; a delivered message changes nothing |
| Session.FinalAppend | WindowSizeLimiter/WindowSizeLimiter.cs:26-31 | the limiter state after a split session is the second part applied to the state the first part left |
| Session.WriteTakesEffectAtNextMessage | WindowSizeLimiter/WindowSizeLimiter.cs:26-31 | after any property write, the very next message is handled with the configuration as it stood, changed by that write alone |
| Session.MinWidthWriteTakesEffect | WindowSizeLimiter/WindowSizeLimiter.cs:26-61 | after MinWidth is written, the next intercepted WM_GETMINMAXINFO gets a min-track X equal to the new width scaled with the DPI captured at construction |
| Session.DisabledRunPassesThrough | WindowSizeLimiter/WindowSizeLimiter.cs:55-72 | a disabled limiter that is never re-enabled forwards every payload exactly as an unhooked window would receive it |
| Session.ToggleOffStopsRewriting | WindowSizeLimiter/WindowSizeLimiter.cs:30-55 | after Enabled is set to false, every later message is forwarded untouched until re-enabled, whatever happened before |

## Left out

- Win32 interop is not modelled: `WindowNative.GetWindowHandle`, `SetWindowLongPtr`, `CallWindowProc` and `GetDpiForWindow`.
  - The previous procedure is represented by the `PrevCall` record the hook produces. Its return value, which the hook passes back, is opaque.
  - The DPI is an input to `Attach`.
- Byte-level marshalling (`Marshal.PtrToStructure` / `StructureToPtr`) is modelled at word granularity only (`ToWords`/`FromWords`).
  - For messages other than WM_GETMINMAXINFO, lParam is not a MINMAXINFO pointer. The model says only that the hook does not touch whatever it points to.
- Floating point: `dpi / 96.0` and the product `v * scale` are computed as exact rationals.
  - This matches IEEE double whenever the DPI is a multiple of 3, because dpi/96 is then exactly representable as a double.
    - Every product whose truncation fits in 32 bits needs fewer than 53 significant bits, so it is exact.
    - A larger product can be rounded, but it stays outside the 32-bit range after rounding, with the same sign. The cast therefore gives the same result under either rule.
    - The usual 96, 120, 144, 168 and 192 DPI are all multiples of 3.
  - For other DPI values the double result can differ: at 101 DPI a width of 480 gives 504 in double arithmetic, where the exact value truncates to 505. The model does not capture this.
- Scaling.ToDevice: states the exact value only when the scaled size fits in 32 bits. The out-of-range C# cast is runtime-defined, and is covered only by the two `CastRule` behaviours.
- The static `_oldWndProc`, shared by all instances, is not modelled. Neither is the subclassing lifecycle (no detach exists).
- The settings window is not modelled: widget enabling, `int.TryParse` before each property write, and the GitHub link launcher. Its property writes appear as `Session.Event` values.

=== FILE: limiter.dfy ===
/**
  The size limiter's window-procedure hook.

  A limiter is attached to one window. It holds the six configuration
  properties, the DPI read once at attach time, and (as a modelling choice)
  the runtime's rule for casting out-of-range doubles to `int`. For every
  message the hook may rewrite the MINMAXINFO payload and then always calls
  the previously installed window procedure with the same handle, message
  and wParam; `PrevCall` describes that call.
*/
module Limiter {
  import opened Native
  import opened Scaling

  datatype Config = Config(
    minWidth: Int32,
    minHeight: Int32,
    maxWidth: Int32,
    maxHeight: Int32,
    enabled: bool,
    enableMaxLimits: bool)

  /** The property initialisers: 400 x 300 minimum, unbounded maximum, enabled, max limits off. */
  const DEFAULT_CONFIG: Config :=
    Config(400, 300, INT32_MAX as Int32, INT32_MAX as Int32, true, false)

  datatype Limiter = Limiter(config: Config, dpi: UInt32, castRule: CastRule)

  /** Construction: default configuration and the window's DPI at that moment. */
  function Attach(dpi: UInt32, rule: CastRule): (l: Limiter)
    ensures l.config.minWidth == 400 && l.config.minHeight == 300
    ensures l.config.maxWidth as int == INT32_MAX && l.config.maxHeight as int == INT32_MAX
    ensures l.config.enabled && !l.config.enableMaxLimits
    ensures l.dpi == dpi && l.castRule == rule
  {
    Limiter(DEFAULT_CONFIG, dpi, rule)
  }

  /** The hook acts only on WM_GETMINMAXINFO, and only while enabled. */
  predicate Intercepts(c: Config, msg: UInt32)
    ensures !c.enabled ==> !Intercepts(c, msg)
    ensures msg != WM_GETMINMAXINFO ==> !Intercepts(c, msg)
    ensures msg == WM_GETMINMAXINFO && c.enabled ==> Intercepts(c, msg)
  {
    msg == WM_GETMINMAXINFO && c.enabled
  }

  /** The configured minimum, converted to device pixels. */
  function MinTrack(l: Limiter): (p: Point)
    ensures InInt32(Scaled(l.config.minWidth as int, l.dpi as nat)) ==>
      p.x as int == Scaled(l.config.minWidth as int, l.dpi as nat)
    ensures InInt32(Scaled(l.config.minHeight as int, l.dpi as nat)) ==>
      p.y as int == Scaled(l.config.minHeight as int, l.dpi as nat)
  {
    Point(ToDevice(l.config.minWidth, l.dpi, l.castRule),
          ToDevice(l.config.minHeight, l.dpi, l.castRule))
  }

  /** The configured maximum, converted to device pixels. */
  function MaxTrack(l: Limiter): (p: Point)
    ensures InInt32(Scaled(l.config.maxWidth as int, l.dpi as nat)) ==>
      p.x as int == Scaled(l.config.maxWidth as int, l.dpi as nat)
    ensures InInt32(Scaled(l.config.maxHeight as int, l.dpi as nat)) ==>
      p.y as int == Scaled(l.config.maxHeight as int, l.dpi as nat)
  {
    Point(ToDevice(l.config.maxWidth, l.dpi, l.castRule),
          ToDevice(l.config.maxHeight, l.dpi, l.castRule))
  }

  /** The payload the hook leaves behind lParam before forwarding. */
  function Rewrite(l: Limiter, msg: UInt32, mmi: MinMaxInfo): (r: MinMaxInfo)
    ensures r.ptReserved == mmi.ptReserved
    ensures r.ptMaxSize == mmi.ptMaxSize
    ensures r.ptMaxPosition == mmi.ptMaxPosition
    ensures !Intercepts(l.config, msg) ==> r == mmi
    ensures Intercepts(l.config, msg) ==> r.ptMinTrackSize == MinTrack(l)
    ensures r.ptMaxTrackSize ==
      if Intercepts(l.config, msg) && l.config.enableMaxLimits then MaxTrack(l) else mmi.ptMaxTrackSize
  {
    if !Intercepts(l.config, msg) then mmi
    else
      var withMin := mmi.(ptMinTrackSize := MinTrack(l));
      if l.config.enableMaxLimits then withMin.(ptMaxTrackSize := MaxTrack(l)) else withMin
  }

  /** The arguments the window procedure was called with (payload: what lParam points to). */
  datatype Message = Message(hWnd: int, msg: UInt32, wParam: int)

  /** The call to the previous window procedure; the hook returns that call's result. */
  datatype PrevCall = PrevCall(hWnd: int, msg: UInt32, wParam: int, payload: MinMaxInfo)

  /**
    The hook: every message is forwarded, with its own handle, number and
    wParam. The forwarded payload keeps the three points the hook never
    touches, is the incoming one unless the message is intercepted, and
    otherwise carries the configured minimum, plus the configured maximum
    when max limits are on.
  */
  function CustomWndProc(l: Limiter, m: Message, payload: MinMaxInfo): (c: PrevCall)
    ensures c.hWnd == m.hWnd && c.msg == m.msg && c.wParam == m.wParam
    ensures c.payload.ptReserved == payload.ptReserved
    ensures c.payload.ptMaxSize == payload.ptMaxSize
    ensures c.payload.ptMaxPosition == payload.ptMaxPosition
    ensures !Intercepts(l.config, m.msg) ==> c.payload == payload
    ensures Intercepts(l.config, m.msg) ==> c.payload.ptMinTrackSize == MinTrack(l)
    ensures Intercepts(l.config, m.msg) && l.config.enableMaxLimits ==>
      c.payload.ptMaxTrackSize == MaxTrack(l)
    ensures !l.config.enableMaxLimits ==> c.payload.ptMaxTrackSize == payload.ptMaxTrackSize
  {
    PrevCall(m.hWnd, m.msg, m.wParam, Rewrite(l, m.msg, payload))
  }

  /** A disabled limiter forwards every payload, WM_GETMINMAXINFO included, unchanged. */
  lemma DisabledPassesThrough(l: Limiter, m: Message, payload: MinMaxInfo)
    requires !l.config.enabled
    ensures CustomWndProc(l, m, payload) == PrevCall(m.hWnd, m.msg, m.wParam, payload)
  {
  }

  /** Any other message is forwarded with its payload unchanged, whatever the configuration. */
  lemma OtherMessagesPassThrough(l: Limiter, m: Message, payload: MinMaxInfo)
    requires m.msg != WM_GETMINMAXINFO
    ensures CustomWndProc(l, m, payload) == PrevCall(m.hWnd, m.msg, m.wParam, payload)
  {
  }

  /** Rewriting the hook's own output with the same configuration changes nothing more. */
  lemma RewriteIdempotent(l: Limiter, msg: UInt32, mmi: MinMaxInfo)
    ensures Rewrite(l, msg, Rewrite(l, msg, mmi)) == Rewrite(l, msg, mmi)
  {
  }

  /** The word offsets in the MINMAXINFO layout whose value the hook may change. */
  function ChangedWords(c: Config, msg: UInt32): set<nat> {
    if !Intercepts(c, msg) then {}
    else if c.enableMaxLimits then {MIN_TRACK_X, MIN_TRACK_Y, MAX_TRACK_X, MAX_TRACK_Y}
    else {MIN_TRACK_X, MIN_TRACK_Y}
  }

  /**
    In memory, the hook writes all ten words back, but only the track-size
    words it is configured to set change value, to the configured device
    sizes; every other word keeps its incoming value.
  */
  lemma RewriteLayoutFrame(l: Limiter, msg: UInt32, mmi: MinMaxInfo)
    ensures forall i :: 0 <= i < WORD_COUNT && i !in ChangedWords(l.config, msg) ==>
      ToWords(Rewrite(l, msg, mmi))[i] == ToWords(mmi)[i]
    ensures MIN_TRACK_X in ChangedWords(l.config, msg) ==>
      ToWords(Rewrite(l, msg, mmi))[MIN_TRACK_X] == ToDevice(l.config.minWidth, l.dpi, l.castRule)
      && ToWords(Rewrite(l, msg, mmi))[MIN_TRACK_Y] == ToDevice(l.config.minHeight, l.dpi, l.castRule)
    ensures MAX_TRACK_X in ChangedWords(l.config, msg) ==>
      ToWords(Rewrite(l, msg, mmi))[MAX_TRACK_X] == ToDevice(l.config.maxWidth, l.dpi, l.castRule)
      && ToWords(Rewrite(l, msg, mmi))[MAX_TRACK_Y] == ToDevice(l.config.maxHeight, l.dpi, l.castRule)
  {
  }

  /** Both coordinates of the minimum track size use the same scale: exact truncation of `v * dpi / 96`. */
  lemma MinTrackScaled(l: Limiter, msg: UInt32, mmi: MinMaxInfo)
    requires Intercepts(l.config, msg)
    requires InInt32(Scaled(l.config.minWidth as int, l.dpi as nat))
    requires InInt32(Scaled(l.config.minHeight as int, l.dpi as nat))
    ensures Rewrite(l, msg, mmi).ptMinTrackSize.x as int == Scaled(l.config.minWidth as int, l.dpi as nat)
    ensures Rewrite(l, msg, mmi).ptMinTrackSize.y as int == Scaled(l.config.minHeight as int, l.dpi as nat)
  {
  }

  /** At 96 DPI the track sizes are the configured sizes exactly, with no overflow possible. */
  lemma RewriteAtStandardDpi(l: Limiter, msg: UInt32, mmi: MinMaxInfo)
    requires Intercepts(l.config, msg) && l.dpi as nat == STANDARD_DPI
    ensures Rewrite(l, msg, mmi).ptMinTrackSize == Point(l.config.minWidth, l.config.minHeight)
    ensures l.config.enableMaxLimits ==>
      Rewrite(l, msg, mmi).ptMaxTrackSize == Point(l.config.maxWidth, l.config.maxHeight)
  {
    ScaledAtStandardDpi(l.config.minWidth as int);
    ScaledAtStandardDpi(l.config.minHeight as int);
    ScaledAtStandardDpi(l.config.maxWidth as int);
    ScaledAtStandardDpi(l.config.maxHeight as int);
  }

  /** A freshly attached limiter at 96 DPI enforces a 400 x 300 minimum and leaves the maximum alone. */
  lemma DefaultsAtStandardDpi(rule: CastRule, mmi: MinMaxInfo)
    ensures Rewrite(Attach(96, rule), WM_GETMINMAXINFO, mmi).ptMinTrackSize == Point(400, 300)
    ensures Rewrite(Attach(96, rule), WM_GETMINMAXINFO, mmi).ptMaxTrackSize == mmi.ptMaxTrackSize
  {
    RewriteAtStandardDpi(Attach(96, rule), WM_GETMINMAXINFO, mmi);
  }

  /** At 144 DPI (150 %), a 600 x 400 minimum becomes 900 x 600 device pixels. */
  lemma ScenarioOneAndAHalf(rule: CastRule, mmi: MinMaxInfo)
    ensures var l := Limiter(Config(600, 400, 1200, 900, true, false), 144, rule);
      Rewrite(l, WM_GETMINMAXINFO, mmi).ptMinTrackSize == Point(900, 600)
      && Rewrite(l, WM_GETMINMAXINFO, mmi).ptMaxTrackSize == mmi.ptMaxTrackSize
  {
  }

  /**
    No validation: configured bounds keep their order after scaling, so
    inverted bounds (min above max) reach the window inverted, not clamped.
  */
  lemma BoundsOrderPassesThrough(l: Limiter, msg: UInt32, mmi: MinMaxInfo)
    requires Intercepts(l.config, msg) && l.config.enableMaxLimits
    requires InInt32(Scaled(l.config.minWidth as int, l.dpi as nat))
    requires InInt32(Scaled(l.config.maxWidth as int, l.dpi as nat))
    requires InInt32(Scaled(l.config.minHeight as int, l.dpi as nat))
    requires InInt32(Scaled(l.config.maxHeight as int, l.dpi as nat))
    ensures var r := Rewrite(l, msg, mmi);
      && (l.config.minWidth <= l.config.maxWidth ==> r.ptMinTrackSize.x <= r.ptMaxTrackSize.x)
      && (l.config.minWidth >= l.config.maxWidth ==> r.ptMinTrackSize.x >= r.ptMaxTrackSize.x)
      && (l.config.minHeight <= l.config.maxHeight ==> r.ptMinTrackSize.y <= r.ptMaxTrackSize.y)
      && (l.config.minHeight >= l.config.maxHeight ==> r.ptMinTrackSize.y >= r.ptMaxTrackSize.y)
  {
    var c := l.config;
    if c.minWidth <= c.maxWidth {
      ScaledMonotone(c.minWidth as int, c.maxWidth as int, l.dpi as nat);
    }
    if c.minWidth >= c.maxWidth {
      ScaledMonotone(c.maxWidth as int, c.minWidth as int, l.dpi as nat);
    }
    if c.minHeight <= c.maxHeight {
      ScaledMonotone(c.minHeight as int, c.maxHeight as int, l.dpi as nat);
    }
    if c.minHeight >= c.maxHeight {
      ScaledMonotone(c.maxHeight as int, c.minHeight as int, l.dpi as nat);
    }
  }

  /** At 100 % scale or more, a minimum width above the maximum stays strictly above it. */
  lemma InvertedWidthStaysInverted(l: Limiter, msg: UInt32, mmi: MinMaxInfo)
    requires Intercepts(l.config, msg) && l.config.enableMaxLimits
    requires l.config.minWidth > l.config.maxWidth && l.dpi as nat >= STANDARD_DPI
    requires InInt32(Scaled(l.config.minWidth as int, l.dpi as nat))
    requires InInt32(Scaled(l.config.maxWidth as int, l.dpi as nat))
    ensures Rewrite(l, msg, mmi).ptMinTrackSize.x > Rewrite(l, msg, mmi).ptMaxTrackSize.x
  {
    ScaledStrictAtOrAboveStandard(l.config.maxWidth as int, l.config.minWidth as int, l.dpi as nat);
  }

  /** At 100 % scale or more, a minimum height above the maximum stays strictly above it. */
  lemma InvertedHeightStaysInverted(l: Limiter, msg: UInt32, mmi: MinMaxInfo)
    requires Intercepts(l.config, msg) && l.config.enableMaxLimits
    requires l.config.minHeight > l.config.maxHeight && l.dpi as nat >= STANDARD_DPI
    requires InInt32(Scaled(l.config.minHeight as int, l.dpi as nat))
    requires InInt32(Scaled(l.config.maxHeight as int, l.dpi as nat))
    ensures Rewrite(l, msg, mmi).ptMinTrackSize.y > Rewrite(l, msg, mmi).ptMaxTrackSize.y
  {
    ScaledStrictAtOrAboveStandard(l.config.maxHeight as int, l.config.minHeight as int, l.dpi as nat);
  }

  /** Below 100 % scale an inverted width can truncate to equal tracks: 3 over 2 at 48 DPI both give 1. */
  lemma InvertedWidthMayMeetBelowStandard(rule: CastRule, mmi: MinMaxInfo)
    ensures var l := Limiter(Config(3, 3, 2, 2, true, true), 48, rule);
      Rewrite(l, WM_GETMINMAXINFO, mmi).ptMinTrackSize.x == 1
      && Rewrite(l, WM_GETMINMAXINFO, mmi).ptMaxTrackSize.x == 1
  {
  }

  /**
    With max limits switched on and the default unbounded maximum, a scale
    above 100 % overflows the cast: the maximum track size is whatever the
    runtime's cast rule yields, int.MinValue under the indefinite rule and
    int.MaxValue under the saturating one.
  */
  lemma DefaultMaximumOverflowsAboveStandard(rule: CastRule, mmi: MinMaxInfo)
    ensures var l := Attach(144, rule).(config := DEFAULT_CONFIG.(enableMaxLimits := true));
      var bound := if rule == Indefinite then INT32_MIN else INT32_MAX;
      Rewrite(l, WM_GETMINMAXINFO, mmi).ptMaxTrackSize == Point(bound as Int32, bound as Int32)
  {
  }
}

=== FILE: native.dfy ===
/**
  The Win32 types the size limiter works on: 32-bit integers, the
  WM_GETMINMAXINFO message number, and the MINMAXINFO structure made of five
  POINTs. The structure is declared with a sequential layout, so the payload
  behind the message's lParam is ten consecutive 32-bit words; `ToWords` and
  `FromWords` are that layout, at word (not byte) granularity.
*/
module Native {

  const INT32_MIN: int := -0x8000_0000
  const INT32_MAX: int := 0x7fff_ffff

  /** The range of a C# `int`. */
  predicate InInt32(x: int) {
    INT32_MIN <= x <= INT32_MAX
  }

  /** A C# `int`. */
  newtype Int32 = x: int | InInt32(x)

  /** A C# `uint`, as returned by GetDpiForWindow and used for message numbers. */
  newtype UInt32 = x: int | 0 <= x < 0x1_0000_0000

  /** The window message asking for the minimum and maximum track sizes. */
  const WM_GETMINMAXINFO: UInt32 := 0x0024

  datatype Point = Point(x: Int32, y: Int32)

  /** MINMAXINFO, fields in declaration (and memory) order. */
  datatype MinMaxInfo = MinMaxInfo(
    ptReserved: Point,
    ptMaxSize: Point,
    ptMaxPosition: Point,
    ptMinTrackSize: Point,
    ptMaxTrackSize: Point)

  /** Number of 32-bit words in the sequential layout of MINMAXINFO. */
  const WORD_COUNT: nat := 10

  /** Word offsets of the four track-size coordinates in that layout. */
  const MIN_TRACK_X: nat := 6
  const MIN_TRACK_Y: nat := 7
  const MAX_TRACK_X: nat := 8
  const MAX_TRACK_Y: nat := 9

  /** Writes the structure out as its sequential layout (StructureToPtr). */
  function ToWords(m: MinMaxInfo): (w: seq<Int32>)
    ensures |w| == WORD_COUNT
    ensures w[MIN_TRACK_X] == m.ptMinTrackSize.x && w[MIN_TRACK_Y] == m.ptMinTrackSize.y
    ensures w[MAX_TRACK_X] == m.ptMaxTrackSize.x && w[MAX_TRACK_Y] == m.ptMaxTrackSize.y
  {
    [ m.ptReserved.x, m.ptReserved.y,
      m.ptMaxSize.x, m.ptMaxSize.y,
      m.ptMaxPosition.x, m.ptMaxPosition.y,
      m.ptMinTrackSize.x, m.ptMinTrackSize.y,
      m.ptMaxTrackSize.x, m.ptMaxTrackSize.y ]
  }

  /** Reads the structure back from its sequential layout (PtrToStructure). */
  function FromWords(w: seq<Int32>): (m: MinMaxInfo)
    requires |w| == WORD_COUNT
    ensures ToWords(m) == w
  {
    MinMaxInfo(
      Point(w[0], w[1]),
      Point(w[2], w[3]),
      Point(w[4], w[5]),
      Point(w[6], w[7]),
      Point(w[8], w[9]))
  }

  /** Reading back what was written gives the same structure. */
  lemma FromWordsToWords(m: MinMaxInfo)
    ensures FromWords(ToWords(m)) == m
  {
  }

  /** Writing what was read gives the same ten words. */
  lemma ToWordsFromWords(w: seq<Int32>)
    requires |w| == WORD_COUNT
    ensures ToWords(FromWords(w)) == w
  {
  }

  /** The layout is injective: two structures with the same words are equal. */
  lemma ToWordsInjective(m: MinMaxInfo, m': MinMaxInfo)
    requires ToWords(m) == ToWords(m')
    ensures m == m'
  {
    FromWordsToWords(m);
    FromWordsToWords(m');
  }
}

=== FILE: scaling.dfy ===
/**
  DPI-aware conversion of logical sizes to device pixels.

  The limiter captures `dpi / 96.0` once and converts a size `v` with
  `(int)(v * scale)`. This module computes that product exactly, as the
  rational `v * dpi / 96`, truncated toward zero like a C# cast from double
  to int. The cast of a value outside the 32-bit range is unchecked in C#
  and its result depends on the runtime; `CastRule` names the two behaviours
  in use and makes the choice explicit.
*/
module Scaling {
  import opened Native

  /** The reference DPI at which one logical unit is one device pixel. */
  const STANDARD_DPI: nat := 96

  /** Integer division rounding toward zero (C#, unlike Dafny's `/`). */
  function TruncDiv(a: int, d: int): (q: int)
    requires d > 0
    ensures a >= 0 ==> 0 <= q * d <= a < q * d + d
    ensures a < 0 ==> q * d - d < a <= q * d <= 0
  {
    if a >= 0 then
      DivBracket(a, d);
      a / d
    else
      DivBracket(-a, d);
      NegMul((-a) / d, d);
      -((-a) / d)
  }

  /** Dafny's `/` on a non-negative dividend is floor division. */
  lemma DivBracket(n: int, d: int)
    requires n >= 0 && d > 0
    ensures 0 <= (n / d) * d <= n < (n / d) * d + d
  {
    assert n == d * (n / d) + n % d;
    MulLeq(0, n / d, d);
  }

  lemma NegMul(x: int, d: int)
    ensures (-x) * d == -(x * d)
  {
  }

  lemma MulLeq(x: int, y: int, d: int)
    requires x <= y && d >= 0
    ensures x * d <= y * d
  {
    assert y * d - x * d == (y - x) * d;
  }

  /** A multiple of a positive `d` that is below `d` is at most zero times `d`. */
  lemma MulBelow(x: int, d: int)
    requires d > 0 && x * d < d
    ensures x <= 0
  {
    if x >= 1 {
      MulLeq(1, x, d);
    }
  }

  /** The conditions of `TruncDiv`'s contract pin the quotient down uniquely. */
  lemma TruncDivUnique(a: int, d: int, q: int)
    requires d > 0
    requires a >= 0 ==> 0 <= q * d <= a < q * d + d
    requires a < 0 ==> q * d - d < a <= q * d <= 0
    ensures q == TruncDiv(a, d)
  {
    var t := TruncDiv(a, d);
    assert (q - t) * d == q * d - t * d;
    assert (t - q) * d == t * d - q * d;
    MulBelow(q - t, d);
    MulBelow(t - q, d);
  }

  /** Truncating division never decreases as the dividend grows. */
  lemma TruncDivMonotone(a: int, b: int, d: int)
    requires d > 0 && a <= b
    ensures TruncDiv(a, d) <= TruncDiv(b, d)
  {
    var qa, qb := TruncDiv(a, d), TruncDiv(b, d);
    if a >= 0 || b < 0 {
      assert (qa - qb) * d == qa * d - qb * d;
      MulBelow(qa - qb, d);
    }
  }

  /** A dividend larger by at least the divisor, both of one sign, gives a larger quotient. */
  lemma TruncDivStep(a: int, b: int, d: int)
    requires d > 0 && a + d <= b
    requires a >= 0 || b <= 0
    ensures TruncDiv(a, d) < TruncDiv(b, d)
  {
    var qa, qb := TruncDiv(a, d), TruncDiv(b, d);
    assert (qa - qb) * d == qa * d - qb * d;
    MulBelow(qa - qb + 1, d);
  }

  /** `v * (dpi / 96)` truncated toward zero, computed exactly. */
  function Scaled(v: int, dpi: nat): (r: int)
    ensures v * dpi >= 0 ==> r * STANDARD_DPI <= v * dpi < r * STANDARD_DPI + STANDARD_DPI
    ensures v * dpi < 0 ==> r * STANDARD_DPI - STANDARD_DPI < v * dpi <= r * STANDARD_DPI
  {
    TruncDiv(v * dpi, STANDARD_DPI)
  }

  /** At the standard DPI the scale is one and sizes are unchanged. */
  lemma ScaledAtStandardDpi(v: int)
    ensures Scaled(v, STANDARD_DPI) == v
  {
    ScaledAtWholeScale(v, 1);
  }

  /** At a whole-number scale `k` (dpi = 96k) the size is exactly multiplied by `k`. */
  lemma ScaledAtWholeScale(v: int, k: nat)
    ensures Scaled(v, STANDARD_DPI * k) == v * k
  {
    var a := v * (STANDARD_DPI * k);
    assert a == (v * k) * STANDARD_DPI;
    TruncDivUnique(a, STANDARD_DPI, v * k);
  }

  /** Scaling keeps the sign of the size. */
  lemma ScaledKeepsSign(v: int, dpi: nat)
    ensures v >= 0 ==> Scaled(v, dpi) >= 0
    ensures v <= 0 ==> Scaled(v, dpi) <= 0
  {
    if v >= 0 {
      MulLeq(0, v, dpi);
    } else {
      MulLeq(v, 0, dpi);
    }
  }

  /** At or below the standard DPI the scaled size is no larger in magnitude. */
  lemma ScaledShrinksAtOrBelowStandard(v: int, dpi: nat)
    requires dpi <= STANDARD_DPI
    ensures v >= 0 ==> 0 <= Scaled(v, dpi) <= v
    ensures v < 0 ==> v <= Scaled(v, dpi) <= 0
  {
    ScaledKeepsSign(v, dpi);
    ScaledMonotoneInDpi(v, dpi, STANDARD_DPI);
    ScaledAtStandardDpi(v);
  }

  /** For a non-negative size, a larger DPI gives a size no smaller; for a negative one, no larger. */
  lemma ScaledMonotoneInDpi(v: int, dpi: nat, dpi': nat)
    requires dpi <= dpi'
    ensures v >= 0 ==> Scaled(v, dpi) <= Scaled(v, dpi')
    ensures v < 0 ==> Scaled(v, dpi') <= Scaled(v, dpi)
  {
    if v >= 0 {
      MulLeq(dpi, dpi', v);
      assert v * dpi <= v * dpi';
      TruncDivMonotone(v * dpi, v * dpi', STANDARD_DPI);
    } else {
      MulLeq(dpi, dpi', -v);
      assert v * dpi' <= v * dpi;
      TruncDivMonotone(v * dpi', v * dpi, STANDARD_DPI);
    }
  }

  /** Scaling preserves the order of sizes. */
  lemma ScaledMonotone(v: int, w: int, dpi: nat)
    requires v <= w
    ensures Scaled(v, dpi) <= Scaled(w, dpi)
  {
    MulLeq(v, w, dpi);
    TruncDivMonotone(v * dpi, w * dpi, STANDARD_DPI);
  }

  /** At or above the standard DPI, distinct sizes stay distinct and keep a strict order. */
  lemma ScaledStrictAtOrAboveStandard(v: int, w: int, dpi: nat)
    requires v < w && dpi >= STANDARD_DPI
    ensures Scaled(v, dpi) < Scaled(w, dpi)
  {
    MulLeq(v + 1, w, dpi);
    assert v * dpi + dpi == (v + 1) * dpi;
    if v >= 0 {
      MulLeq(0, v, dpi);
      TruncDivStep(v * dpi, w * dpi, STANDARD_DPI);
    } else if w <= 0 {
      MulLeq(w, 0, dpi);
      TruncDivStep(v * dpi, w * dpi, STANDARD_DPI);
    } else {
      MulLeq(v, -1, dpi);
      MulLeq(1, w, dpi);
      assert Scaled(v, dpi) <= -1 by {
        TruncDivMonotone(v * dpi, -(STANDARD_DPI as int), STANDARD_DPI);
      }
      assert Scaled(w, dpi) >= 1 by {
        TruncDivMonotone(STANDARD_DPI, w * dpi, STANDARD_DPI);
      }
    }
  }

  /** How the runtime converts a double outside the 32-bit range to `int`. */
  datatype CastRule =
    | Saturating   // clamps to int.MinValue / int.MaxValue
    | Indefinite   // yields int.MinValue (0x80000000) whatever the sign

  /** The `(int)` cast of an already-truncated value. */
  function CastToInt32(x: int, rule: CastRule): (r: Int32)
    ensures InInt32(x) ==> r as int == x
    ensures !InInt32(x) && rule == Indefinite ==> r as int == INT32_MIN
    ensures !InInt32(x) && rule == Saturating ==> r as int == (if x < 0 then INT32_MIN else INT32_MAX)
  {
    if InInt32(x) then x as Int32
    else match rule
      case Saturating => if x < 0 then INT32_MIN as Int32 else INT32_MAX as Int32
      case Indefinite => INT32_MIN as Int32
  }

  /** Under the saturating rule the cast preserves order. */
  lemma SaturatingCastMonotone(x: int, y: int)
    requires x <= y
    ensures CastToInt32(x, Saturating) <= CastToInt32(y, Saturating)
  {
  }

  /** `(int)(v * scale)` for the captured scale `dpi / 96.0`. */
  function ToDevice(v: Int32, dpi: UInt32, rule: CastRule): (r: Int32)
    ensures InInt32(Scaled(v as int, dpi as nat)) ==> r as int == Scaled(v as int, dpi as nat)
  {
    CastToInt32(Scaled(v as int, dpi as nat), rule)
  }

  /** Up to the standard DPI no 32-bit size overflows, whatever the cast rule. */
  lemma ToDeviceExactAtOrBelowStandard(v: Int32, dpi: UInt32, rule: CastRule)
    requires dpi as nat <= STANDARD_DPI
    ensures InInt32(Scaled(v as int, dpi as nat))
    ensures ToDevice(v, dpi, rule) as int == Scaled(v as int, dpi as nat)
  {
    assert InInt32(v as int);
    ScaledShrinksAtOrBelowStandard(v as int, dpi as nat);
  }
}

=== FILE: session.dfy ===
/**
  A limiter over time. The configuration properties are plain settable
  properties, read afresh on every message, while the DPI is read once at
  attach time. A session is a sequence of property writes and delivered
  messages; `Run` lists the calls the hook makes to the previous window
  procedure, one per delivered message.
*/
module Session {
  import opened Native
  import opened Scaling
  import opened Limiter

  datatype Event =
    | SetMinWidth(v: Int32)
    | SetMinHeight(v: Int32)
    | SetMaxWidth(v: Int32)
    | SetMaxHeight(v: Int32)
    | SetEnabled(on: bool)
    | SetEnableMaxLimits(on: bool)
    | Deliver(m: Message, payload: MinMaxInfo)

  /** A property write changes that one property; a delivered message changes none. */
  function Apply(c: Config, e: Event): (c': Config)
    ensures e.SetMinWidth? ==> c' == c.(minWidth := e.v)
    ensures e.SetMinHeight? ==> c' == c.(minHeight := e.v)
    ensures e.SetMaxWidth? ==> c' == c.(maxWidth := e.v)
    ensures e.SetMaxHeight? ==> c' == c.(maxHeight := e.v)
    ensures e.SetEnabled? ==> c' == c.(enabled := e.on)
    ensures e.SetEnableMaxLimits? ==> c' == c.(enableMaxLimits := e.on)
    ensures e.Deliver? ==> c' == c
  {
    match e
    case SetMinWidth(v) => c.(minWidth := v)
    case SetMinHeight(v) => c.(minHeight := v)
    case SetMaxWidth(v) => c.(maxWidth := v)
    case SetMaxHeight(v) => c.(maxHeight := v)
    case SetEnabled(on) => c.(enabled := on)
    case SetEnableMaxLimits(on) => c.(enableMaxLimits := on)
    case Deliver(_, _) => c
  }

  /** The limiter after a session: only the configuration is ever written. */
  function Final(l: Limiter, events: seq<Event>): Limiter
    decreases |events|
  {
    if events == [] then l
    else Final(l.(config := Apply(l.config, events[0])), events[1..])
  }

  /** The calls the previous window procedure would receive with no hook installed. */
  function Unhooked(events: seq<Event>): (calls: seq<PrevCall>)
    decreases |events|
  {
    if events == [] then []
    else
      var rest := Unhooked(events[1..]);
      match events[0]
      case Deliver(m, p) => [PrevCall(m.hWnd, m.msg, m.wParam, p)] + rest
      case _ => rest
  }

  /**
    The calls the hook makes during a session: one per delivered message, in
    order, each with that message's handle, number and wParam.
  */
  function Run(l: Limiter, events: seq<Event>): (calls: seq<PrevCall>)
    ensures |calls| == |Unhooked(events)|
    ensures forall i :: 0 <= i < |calls| ==>
      calls[i].hWnd == Unhooked(events)[i].hWnd
      && calls[i].msg == Unhooked(events)[i].msg
      && calls[i].wParam == Unhooked(events)[i].wParam
    decreases |events|
  {
    if events == [] then []
    else
      var rest := Run(l.(config := Apply(l.config, events[0])), events[1..]);
      match events[0]
      case Deliver(m, p) => [CustomWndProc(l, m, p)] + rest
      case _ => rest
  }

  /** The DPI snapshot and cast rule survive every session unchanged. */
  lemma {:induction false} FinalKeepsDpi(l: Limiter, events: seq<Event>)
    ensures Final(l, events).dpi == l.dpi
    ensures Final(l, events).castRule == l.castRule
    decreases |events|
  {
    if events != [] {
      FinalKeepsDpi(l.(config := Apply(l.config, events[0])), events[1..]);
    }
  }

  /** A session split in two runs the second part from the state the first part left. */
  lemma {:induction false} RunAppend(l: Limiter, first: seq<Event>, second: seq<Event>)
    ensures Run(l, first + second) == Run(l, first) + Run(Final(l, first), second)
    decreases |first|
  {
    if first == [] {
      assert first + second == second;
    } else {
      assert (first + second)[1..] == first[1..] + second;
      RunAppend(l.(config := Apply(l.config, first[0])), first[1..], second);
    }
  }

  /** The state after a split session is the second part's state from the first part's. */
  lemma {:induction false} FinalAppend(l: Limiter, first: seq<Event>, second: seq<Event>)
    ensures Final(l, first + second) == Final(Final(l, first), second)
    decreases |first|
  {
    if first == [] {
      assert first + second == second;
    } else {
      assert (first + second)[1..] == first[1..] + second;
      FinalAppend(l.(config := Apply(l.config, first[0])), first[1..], second);
    }
  }

  /**
    A property write takes effect at the very next message: that message is
    handled with the configuration as it stood, updated by the write alone.
  */
  lemma WriteTakesEffectAtNextMessage(l: Limiter, before: seq<Event>, e: Event, m: Message, p: MinMaxInfo)
    requires !e.Deliver?
    ensures var s := Final(l, before);
      Run(l, before + [e, Deliver(m, p)])
        == Run(l, before) + [CustomWndProc(s.(config := Apply(s.config, e)), m, p)]
  {
    RunAppend(l, before, [e, Deliver(m, p)]);
    assert [e, Deliver(m, p)][1..] == [Deliver(m, p)];
    assert [Deliver(m, p)][1..] == [];
  }

  /**
    After MinWidth is written, the next intercepted WM_GETMINMAXINFO gets the
    new width, scaled with the DPI captured at attach time.
  */
  lemma MinWidthWriteTakesEffect(l: Limiter, before: seq<Event>, v: Int32, m: Message, p: MinMaxInfo)
    requires m.msg == WM_GETMINMAXINFO && Final(l, before).config.enabled
    ensures var calls := Run(l, before + [SetMinWidth(v), Deliver(m, p)]);
      |calls| > 0 && calls[|calls| - 1].payload.ptMinTrackSize.x == ToDevice(v, l.dpi, l.castRule)
  {
    WriteTakesEffectAtNextMessage(l, before, SetMinWidth(v), m, p);
    FinalKeepsDpi(l, before);
  }

  /** No event of the session switches the limiter on. */
  predicate NeverEnables(events: seq<Event>) {
    forall i :: 0 <= i < |events| ==> events[i] != SetEnabled(true)
  }

  /** While disabled, and never re-enabled, the hook forwards every payload untouched. */
  lemma {:induction false} DisabledRunPassesThrough(l: Limiter, events: seq<Event>)
    requires !l.config.enabled && NeverEnables(events)
    ensures Run(l, events) == Unhooked(events)
    decreases |events|
  {
    if events != [] {
      assert events[0] != SetEnabled(true);
      assert NeverEnables(events[1..]) by {
        forall i | 0 <= i < |events[1..]| ensures events[1..][i] != SetEnabled(true) {
          assert events[1..][i] == events[i + 1];
        }
      }
      DisabledRunPassesThrough(l.(config := Apply(l.config, events[0])), events[1..]);
    }
  }

  /**
    Switching the limiter off takes effect at the next message: whatever
    happened before, every later payload is forwarded untouched until it is
    switched on again.
  */
  lemma ToggleOffStopsRewriting(l: Limiter, before: seq<Event>, after: seq<Event>)
    requires NeverEnables(after)
    ensures Run(l, before + [SetEnabled(false)] + after)
      == Run(l, before) + Unhooked(after)
  {
    var off := Final(l, before);
    RunAppend(l, before, [SetEnabled(false)] + after);
    assert ([SetEnabled(false)] + after)[1..] == after;
    DisabledRunPassesThrough(off.(config := off.config.(enabled := false)), after);
    assert before + [SetEnabled(false)] + after == before + ([SetEnabled(false)] + after);
  }
}
